=== FILE: README.md ===
# bool-sat DPLL core in Dafny

This project models the propositional satisfiability engine of the bool-sat
repository. The engine is a DPLL search over CNF clauses with these parts:

- a `Clause`: a set of signed integer literals and two watched-literal slots;
- a `SATInstance`: the clause list plus a variable-to-clauses occurrence index;
- the `DPLL` search. It checks clause satisfaction and branches on the
  unassigned variable with the most index entries. Each branch assigns that
  variable and drops the clauses it satisfies, then recurses on copies of the
  instance and of the assignment map, trying `true` before `false`.

Modules, one file each:

- `Wrappers` (`wrappers.dfy`): `Option` and `Result`.
- `Collections` (`collections.dfy`): `List.remove` on sequences and a few set facts.
- `Clauses` (`clause.dfy`): `Clause.java`.
- `Instances` (`instance.dfy`): `SATInstance.java`.
- `Solver` (`solver.dfy`): `DPLL.java`.

Java objects become immutable values. A mutating method becomes a function or
method that returns the updated value. `Clause` does not override `equals`,
so list removal in Java goes by object identity. The model gives every clause
object a `ClauseId`: the clause list holds `ClauseRef(id, clause)` and the
index holds ids.

The index invariant (`Instances.IndexInvariant`) has three parts:

- the ids in the clause list are distinct;
- no variable maps to an empty list;
- clause `id` appears under variable `v` exactly as many times as the stored
  clause `id` has literals `l` with `|l| = v`.

Iterating a `HashSet` visits its elements in an unspecified order. Operations
that do so are methods that pick each next element with `:|`, so their
contracts hold for every order. Those operations are:

- the watch initialisation of both `Clause` constructors;
- `addClause` and `removeClause`;
- `chooseVariable`.

Three behaviours come from code this model cannot see. They are parameters
bundled in `Solver.Oracles`, and every property holds whatever they return:

- `Clause.isUnit`;
- `Clause.getUnitLiteral`;
- the boolean result of `propagateAssignments`.

## Model

| member | source | states |
|---|---|---|
| Clauses.FirstTwo | src/solver/sat/Clause.java:12-17 | the watch loop fills slot 0 iff the set has at least one literal and slot 1 iff it has at least two; the filled slots hold distinct literals of the set |
| Clauses.NewClause | src/solver/sat/Clause.java:10-17 | a new clause contains `l` iff `l` was in the given set, and its watches are members of the clause, distinct, with slot 1 null for a one-literal clause and both null for an empty one |
| Clauses.CopyClause | src/solver/sat/Clause.java:21-28 | the copy has an equal literal set and watches recomputed from its own set that again satisfy the membership, distinctness and null-slot conditions |
| Clauses.UpdateWatchedLiteral | src/solver/sat/Clause.java:38-40 | the store succeeds iff the index is 0 or 1 (otherwise an out-of-bounds error); slot `index` then holds the new literal, while the other slot and the literal set are unchanged |
| Clauses.RemoveLiteral | src/solver/sat/Clause.java:42-44 | afterwards the clause does not contain `l`, every other literal's membership is unchanged, the watches are untouched, and removing an absent literal changes nothing |
| Clauses.ContainsVariable | src/solver/sat/Clause.java:50-52 | `contains` read per variable: the clause has a positive count for `v` iff it contains some literal whose variable is `v`, which is when the instance lists it under `v` |
| Clauses.IsEmpty | src/solver/sat/Clause.java:46-48 | true iff `contains` holds for no literal |
| Collections.RemoveFirst | src/solver/sat/SATInstance.java:72 | `List.remove`: when the element occurs, its first occurrence is cut out and the elements before and after it keep their order (so one occurrence goes and every other count stays); otherwise the list is unchanged |
| Instances.EmptyInstance | src/solver/sat/SATInstance.java:21-24 | a new instance keeps the two counts, has no variables, clauses or index entries, and satisfies the index invariant |
| Instances.GetClausesContaining | src/solver/sat/SATInstance.java:80-82 | a variable without an entry gives an empty list; under the invariant, an id is listed iff the stored clause with that id has a literal of the variable |
| Instances.AddVariable | src/solver/sat/SATInstance.java:84-86 | adds exactly the absolute value of the literal to `vars`, and nothing else changes |
| Instances.AddVariableBothSigns | src/solver/sat/SATInstance.java:84-86 | adding `l` and then `-l` gives the same instance as adding `l` alone; one call adds at most one variable |
| Instances.RemoveFirstId | src/solver/sat/SATInstance.java:62 | `clauses.remove(clause)` keeps only entries of the list and leaves an absent clause's list unchanged; every other identity finds the same object; with distinct ids, the removed identity is no longer stored |
| Instances.RemoveFirstIdSplits | src/solver/sat/SATInstance.java:62 | when the identity is stored, `clauses.remove(clause)` cuts out its first entry and keeps the entries before and after it in their order |
| Instances.RemoveFromVariableToClauses | src/solver/sat/SATInstance.java:69-77 | a variable without an entry is a no-op; otherwise one listing of the clause goes from that variable's list and the key is deleted exactly when the list becomes empty; other keys and fields are unchanged |
| Instances.AddClause | src/solver/sat/SATInstance.java:52-59 | the clause is appended after the unchanged earlier entries, and each variable's list gains the clause once per literal of that variable; a key exists afterwards iff it existed or the clause has a literal of it; re-adding a stored object appends it again; the index invariant is preserved when the added object is not already stored, as at every call in the source |
| Instances.AddClausePreservesInvariant | src/solver/sat/SATInstance.java:52-59 | appending a fresh clause and listing it once per literal under each variable keeps ids distinct, lists non-empty and every count equal to the clause's occurrences |
| Instances.RemoveClause | src/solver/sat/SATInstance.java:61-67 | the first entry of the clause leaves the list, and under each variable as many listings go as the clause has literals of it; keys are deleted only when their list empties; the invariant is preserved when the reference names the stored object; removing a clause that is not stored changes nothing |
| Instances.RemoveClausePreservesInvariant | src/solver/sat/SATInstance.java:61-67 | removing the stored object and one listing per literal keeps ids distinct, lists non-empty and every count equal to the occurrences of the clauses still stored |
| Instances.RemoveAbsentClause | src/solver/sat/SATInstance.java:61-67 | under the invariant, removing a clause that is not in the list leaves the instance equal to what it was |
| Instances.CopyInstance | src/solver/sat/SATInstance.java:27-34 | the copy has the same counts and variables and, in the same order, a clause with an equal literal set and valid watches for each clause; it also has a rebuilt index satisfying the invariant |
| Solver.IsClauseSatisfied | src/solver/sat/DPLL.java:104-106 | a clause is satisfied iff some literal has its variable assigned the value `literal > 0` |
| Solver.SatisfactionPersists | src/solver/sat/DPLL.java:104-106 | a satisfied clause stays satisfied under any assignment that keeps every current assignment |
| Solver.AllLiteralsAssigned | src/solver/sat/DPLL.java:108-110 | true iff no literal of the clause is unassigned |
| Solver.AssignedClauseDecided | src/solver/sat/DPLL.java:98-99 | when every literal is assigned, the clause is unsatisfied iff every literal is false |
| Solver.AllSatisfied | src/solver/sat/DPLL.java:139 | the short-circuit scan over the clause list is true iff every clause is satisfied |
| Solver.AllClausesSatisfied | src/solver/sat/DPLL.java:137-140 | true iff every remaining clause of the instance is satisfied |
| Solver.ChooseVariable | src/solver/sat/DPLL.java:51-59 | null iff every variable of `vars` is assigned; otherwise an unassigned member of `vars` such that no unassigned variable has a strictly longer index list |
| Solver.WithoutLiteral | src/solver/sat/DPLL.java:65-66 | the clauses left once a literal is made true: an entry stays iff it does not contain the literal |
| Solver.AllHits | src/solver/sat/DPLL.java:63-67 | because the index lists every clause with a literal of the variable, removing the listed clauses that contain the true literal removes exactly the clauses containing it |
| Solver.AssignVariable | src/solver/sat/DPLL.java:61-69 | sets the variable to the value with the rest of the map unchanged; the remaining clauses are exactly those without the literal made true (`v` for `true`, `-v` for `false`), in order; the counts and `vars` are unchanged and the index invariant is kept |
| Solver.SelectUnits | src/solver/sat/DPLL.java:115-117 | selects exactly the stored unit clauses whose unit literal's variable is unassigned |
| Solver.AssignUnits | src/solver/sat/DPLL.java:119-127 | every variable the pass changes takes the value that makes some selected unit literal true (a later unit on the same variable overwrites an earlier one, so with units `1` and `-1` the first is left false), and no other variable changes; on success every selected variable is assigned; it stops with failure only after `propagateAssignments` reported a conflict on a unit variable of this pass, on the current map |
| Solver.AssignUnitsPinned | src/solver/sat/DPLL.java:119-126 | with the maps the loop builds (the start map with the first `k` unit literals set true in turn), the pass succeeds iff no `propagateAssignments` call on them reports a conflict, and then holds the map with every unit assigned; otherwise it stops at the first call that reports one, holding the map built up to that unit |
| Solver.PassExtends | src/solver/sat/DPLL.java:115-127 | one propagation pass keeps every assignment it starts from |
| Solver.PassForced | src/solver/sat/DPLL.java:115-127 | every assignment one pass adds makes the unit literal of some stored unit clause true |
| Solver.NothingPending | src/solver/sat/DPLL.java:128-132 | after a pass that succeeds, the second filter of the do-while selects no unit clause, so `progress` is false and the loop ends |
| Solver.PropagateUnitClauses | src/solver/sat/DPLL.java:112-135 | never removes or changes an assignment, and every added assignment is forced by a unit clause; false only when `propagateAssignments` reported a conflict on a variable this call assigned; on true every unit clause's variable is assigned; with no unit clause pending it answers true and leaves the map as it is; its answer and map are exactly those of one pass over the selected unit clauses: true iff no `propagateAssignments` call the loop makes reports a conflict, otherwise false with the map at the first conflicting call |
| Solver.Decide | src/solver/sat/DPLL.java:35-38 | on copies of the instance and map, assigning the variable gives the map updated at that variable and the same variables; the clauses left are, position by position, clauses with the same literal sets as the entries of the original that do not contain the literal made true, in their order and with duplicates kept |
| Solver.WithoutLiteralSameSets | src/solver/sat/DPLL.java:65-66 | filtering by a literal two clause lists that hold equal literal sets position by position (an instance and its copy) leaves two lists that again do |
| Solver.WithoutLiteralSets | src/solver/sat/DPLL.java:65-66 | by literal set, dropping the clauses that contain a literal leaves exactly the literal sets without it |
| Solver.DecisionProgress | src/solver/sat/DPLL.java:28-41 | a decision on a fresh variable, kept by propagation, leaves strictly fewer variables of `vars` unassigned |
| Solver.DecisionSound | src/solver/sat/DPLL.java:38-42 | a model of the simplified copy that keeps the decision satisfies every clause of the instance it was made from, and keeps the caller's assignments |
| Solver.Branch | src/solver/sat/DPLL.java:34-46 | one iteration of the value loop: `Sat` only with a map that keeps the caller's assignments and, for positive variables, satisfies every clause of the caller's instance |
| Solver.Dpll | src/solver/sat/DPLL.java:22-48 | `Sat` only with a map that extends the given assignments and, when all variables are positive, satisfies every clause of the instance; a map that already satisfies every clause (any map when no clause is left) is returned as it is; once every variable is assigned the result is that map or `Unsat`; its `decreases` measure, the number of unassigned variables of `vars`, bounds the recursion depth |
| Solver.SolveSat | src/solver/sat/DPLL.java:13-20 | `Unsat` without search when the initial unit propagation fails; a `Sat` map extends the propagated assignments and, for positive variables, satisfies every input clause; when the propagated map already satisfies every clause, and always for an instance without clauses, that map is the answer |

## Left out

- Printing is not modelled. This covers `System.out.println` at src/solver/sat/DPLL.java:24 and `SATInstance.toString`. The `Sat` verdict carries the map that would be printed.
- `Main.java` and `Result.java` are not part of this model. They hold command-line handling, file parsing, timing and a result holder. `Main` also calls a two-argument `solveSAT` that `DPLL.java` does not define.
- `updateWatchedLiterals` and `propagateAssignments` (src/solver/sat/DPLL.java:71-102) are not modelled. They call `Clause.isWatching`, which `Clause.java` does not define, and their conflict convention is inverted: `propagateAssignments` answers `false` as soon as any affected clause is satisfiable. Their result is the `propagate` oracle, and the watch updates they make are not modelled.
- `Clause.isUnit` and `Clause.getUnitLiteral` are not defined in `Clause.java`. They are the `isUnit` and `unitLiteral` oracles.
- `chooseVariable` calls `getVariableToClauses()`, which `SATInstance.java` does not define. `Solver.Score` reads the index the way `getClausesContaining` does.
- Completeness ("`Unsat` implies no model exists") is not stated. With the oracle free, a branch can be cut by a spurious conflict, and the inverted convention makes that the normal case.
- Solver.PropagateUnitClauses: the watch updates of `propagateAssignments` are not modelled, so `isUnit` and `getUnitLiteral` give the same answer for a clause in every pass. Under that reading the do-while makes at most one pass that assigns anything (`Solver.NothingPending`). Termination of the source loop when watch updates change which clauses are unit is not established.
- Solver.Dpll: does not state that `true` is tried before `false`. `Dpll` and `Branch` are methods, so no postcondition can name the outcome of the `true` branch to say the `false` branch runs only after it fails. The body tries `true` first.
- Solver.Dpll: soundness is stated for instances whose `vars` are positive. Any variable stored by `addVariable` from a non-zero literal is positive, but a variable 0 would let a clause holding literal `0` be dropped when 0 is set to `true`, which makes literal 0 false.
- Solver.SolveSat: states the failure case, the case where propagation alone already satisfies every clause, and the soundness of `Sat`. It does not state equality with one particular run of `Dpll`, because the search is a method whose choice of variable is nondeterministic.
- Solver.AssignVariable: requires the index invariant, which holds for every instance the search builds (it always works on a fresh copy).
- Clauses.Abs: is the mathematical absolute value. `Math.abs(Integer.MIN_VALUE)` overflows in Java, but that is not modelled, and integers are unbounded.
- Branches working on independent copies is not stated as a separate property. With value semantics, a failed branch cannot alter the caller's instance or map, and the same holds for `removeLiteral` on a copied clause.
- The iteration order of `HashSet`/`HashMap` and the tie-breaking of `Stream.max` are not modelled. Contracts hold for every order, and `ChooseVariable` promises only some maximal unassigned variable.
- The getters of both classes are not modelled: the datatype fields are read directly.
- In `dpll`, the `variable == null` branch returns `allClausesSatisfied`, which at that point is always false, since the same check failed on entry. The model keeps the call as written.

=== FILE: clause.dfy ===
/**
 A clause of a CNF formula (src/solver/sat/Clause.java): a set of non-zero
 signed literals and an array of two watch slots. Java mutation of a clause
 becomes a function returning the updated value, so a copy and its original
 can never share storage.
 */
module Clauses {
  import opened Wrappers
  import Collections

  /** The variable of a literal, as `Math.abs` computes it. */
  function Abs(l: int): nat
  {
    if l < 0 then -l else l
  }

  /** The two-element `Integer[]` of watched literals; `None` is a null slot. */
  type WatchSlots = s: seq<Option<int>> | |s| == 2 witness [None, None]

  datatype Clause = Clause(literals: set<int>, watched: WatchSlots)

  function Slots(first: Option<int>, second: Option<int>): (r: WatchSlots)
    ensures r[0] == first && r[1] == second
  {
    [first, second]
  }

  /** Raised by an array store outside `watchedLiterals`. */
  datatype Error = IndexOutOfBounds

  predicate Contains(c: Clause, l: int)
  {
    l in c.literals
  }

  /**
   The slots as both constructors leave them: each filled slot holds a literal
   of the clause, the two filled slots differ, and slots are filled from the
   first one on, as many as the clause has literals (at most two).
   */
  ghost predicate WatchesValid(c: Clause)
  {
    && (forall k :: 0 <= k < 2 && c.watched[k].Some? ==> c.watched[k].value in c.literals)
    && (c.watched[0].Some? && c.watched[1].Some? ==> c.watched[0].value != c.watched[1].value)
    && (c.watched[0].Some? <==> |c.literals| >= 1)
    && (c.watched[1].Some? <==> |c.literals| >= 2)
  }

  /**
   The loop of both constructors: the first two literals met while iterating
   the set (a `HashSet` does not specify its iteration order, so any two).
   */
  method FirstTwo(literals: set<int>) returns (first: Option<int>, second: Option<int>)
    ensures first.Some? <==> |literals| >= 1
    ensures second.Some? <==> |literals| >= 2
    ensures first.Some? ==> first.value in literals
    ensures second.Some? ==> second.value in literals && second.value != first.value
  {
    first, second := None, None;
    var seen: set<int> := {};
    var rest := literals;
    var i := 0;
    while rest != {} && i < 2
      invariant seen + rest == literals && seen !! rest
      invariant i == |seen| && i <= 2
      invariant first.Some? <==> i >= 1
      invariant second.Some? <==> i >= 2
      invariant i >= 1 ==> first.value in seen
      invariant i >= 2 ==> second.value in seen && first.value != second.value
      decreases rest
    {
      Collections.NonEmptyHasMember(rest);
      var l :| l in rest;
      if i == 0 {
        first := Some(l);
      } else {
        second := Some(l);
      }
      i := i + 1;
      seen := seen + {l};
      rest := rest - {l};
    }
    assert |literals| == |seen| + |rest|;
  }

  /** `new Clause(literals)`: stores the literal set and watches its first two literals. */
  method NewClause(literals: set<int>) returns (c: Clause)
    ensures c.literals == literals
    ensures forall l :: Contains(c, l) <==> l in literals
    ensures WatchesValid(c)
  {
    var first, second := FirstTwo(literals);
    c := Clause(literals, Slots(first, second));
  }

  /**
   The copy constructor `new Clause(other)`: an equal literal set whose watches
   are recomputed from the copy's own set, not taken over from `other`.
   */
  method CopyClause(other: Clause) returns (c: Clause)
    ensures c.literals == other.literals
    ensures WatchesValid(c)
  {
    c := NewClause(other.literals);
  }

  /** `updateWatchedLiteral(index, l)`: a store into slot `index`; any other index is out of bounds. */
  function UpdateWatchedLiteral(c: Clause, index: int, l: Option<int>): (r: Result<Clause, Error>)
    ensures r.Success? <==> 0 <= index < 2
    ensures r.Success? ==> r.value.watched[index] == l
    ensures r.Success? ==> r.value.watched[1 - index] == c.watched[1 - index]
    ensures r.Success? ==> r.value.literals == c.literals
  {
    if 0 <= index < 2 then Success(c.(watched := c.watched[index := l]))
    else Failure(IndexOutOfBounds)
  }

  /** `removeLiteral(l)`: only the literal set changes; the watch slots are left as they are. */
  function RemoveLiteral(c: Clause, l: int): (r: Clause)
    ensures !Contains(r, l)
    ensures forall x :: x != l ==> (Contains(r, x) <==> Contains(c, x))
    ensures !Contains(c, l) ==> r == c
    ensures r.watched == c.watched
  {
    c.(literals := c.literals - {l})
  }

  function IsEmpty(c: Clause): (r: bool)
    ensures r <==> forall l :: !Contains(c, l)
  {
    Collections.NonEmptyHasMember(c.literals);
    assert forall l :: Contains(c, l) <==> l in c.literals;
    c.literals == {}
  }

  /** The literals of a set whose variable is `v`: `v` and `-v` for `v > 0`, only `0` for `v == 0`. */
  function LiteralsOfVariable(literals: set<int>, v: int): set<int>
  {
    set l | l in literals && Abs(l) == v
  }

  /** How many literals of a set have variable `v`; 0, 1 or 2. */
  function Occurrences(literals: set<int>, v: int): nat
  {
    |LiteralsOfVariable(literals, v)|
  }

  /** Adding a literal raises the count of its own variable by one and of no other variable. */
  lemma OccurrencesAdd(seen: set<int>, l: int, v: int)
    requires l !in seen
    ensures Occurrences(seen + {l}, v) == Occurrences(seen, v) + (if Abs(l) == v then 1 else 0)
  {
    if Abs(l) == v {
      assert LiteralsOfVariable(seen + {l}, v) == LiteralsOfVariable(seen, v) + {l};
    } else {
      assert LiteralsOfVariable(seen + {l}, v) == LiteralsOfVariable(seen, v);
    }
  }

  /**
   `contains` seen per variable: a clause has a positive count for `v` iff it
   contains some literal whose variable is `v`, the condition under which the
   instance lists the clause under `v`.
   */
  lemma {:induction false} ContainsVariable(c: Clause, v: int)
    ensures Occurrences(c.literals, v) > 0 <==> exists l :: Contains(c, l) && Abs(l) == v
  {
    if Occurrences(c.literals, v) > 0 {
      Collections.NonEmptyHasMember(LiteralsOfVariable(c.literals, v));
      var l :| l in LiteralsOfVariable(c.literals, v);
      assert Contains(c, l) && Abs(l) == v;
    } else {
      forall l | Contains(c, l) && Abs(l) == v ensures false {
        OccursOfMember(c.literals, l);
      }
    }
  }

  /** A literal of the set makes its variable occur in it. */
  lemma OccursOfMember(literals: set<int>, l: int)
    requires l in literals
    ensures Occurrences(literals, Abs(l)) > 0
  {
    assert l in LiteralsOfVariable(literals, Abs(l));
  }
}

=== FILE: collections.dfy ===
/** The `java.util.List` and `HashSet` facts the solver relies on, over Dafny sequences and sets. */
module Collections {

  /** `r` is `s` with the element at `k`, the first occurrence of `x`, cut out and the rest in order. */
  ghost predicate RemovedAt<T>(s: seq<T>, x: T, k: int, r: seq<T>)
  {
    0 <= k < |s| && s[k] == x && x !in s[..k] && r == s[..k] + s[k + 1..]
  }

  /** `List.remove(Object)`: drops the first element equal to `x`; a list without `x` is returned as is. */
  function RemoveFirst<T(==)>(s: seq<T>, x: T): (r: seq<T>)
    ensures x in s ==> |r| == |s| - 1 && multiset(r) == multiset(s) - multiset{x}
    ensures x in s ==> exists k :: RemovedAt(s, x, k, r)
    ensures x !in s ==> r == s
  {
    if s == [] then []
    else if s[0] == x then
      assert s == [s[0]] + s[1..];
      assert RemovedAt(s, x, 0, s[1..]);
      s[1..]
    else
      assert s == [s[0]] + s[1..];
      var rest := RemoveFirst(s[1..], x);
      RemovedAtCons(s, x, rest);
      [s[0]] + rest
  }

  /** Cutting the first `x` out of the tail, behind a head that is not `x`, cuts the first `x` out of the list. */
  lemma RemovedAtCons<T>(s: seq<T>, x: T, rest: seq<T>)
    requires s != [] && s[0] != x
    requires x in s[1..] ==> exists k :: RemovedAt(s[1..], x, k, rest)
    ensures x in s ==> exists k :: RemovedAt(s, x, k, [s[0]] + rest)
  {
    if x in s {
      assert x in s[1..] by {
        var j :| 0 <= j < |s| && s[j] == x;
        assert s[1..][j - 1] == x;
      }
      var k :| RemovedAt(s[1..], x, k, rest);
      assert s[..k + 1] == [s[0]] + s[1..][..k];
      assert s[k + 2..] == s[1..][k + 1..];
      assert RemovedAt(s, x, k + 1, [s[0]] + rest);
    }
  }

  /** `n` successive calls of `List.remove(x)`. */
  function RemoveN<T(==,!new)>(s: seq<T>, x: T, n: nat): (r: seq<T>)
    ensures multiset(r)[x] == if multiset(s)[x] >= n then multiset(s)[x] - n else 0
    ensures forall y :: y != x ==> multiset(r)[y] == multiset(s)[y]
  {
    if n == 0 then s
    else
      var prev := RemoveN(s, x, n - 1);
      assert x in prev <==> multiset(prev)[x] > 0;
      RemoveFirst(prev, x)
  }

  /** The list obtained by `n` successive calls of `List.add(x)` on an empty list. */
  function Repeat<T>(x: T, n: nat): (r: seq<T>)
    ensures |r| == n
    ensures forall i :: 0 <= i < n ==> r[i] == x
  {
    if n == 0 then [] else Repeat(x, n - 1) + [x]
  }

  /** `n` copies of `x` hold `x` exactly `n` times and nothing else. */
  lemma {:induction false} RepeatMultiset<T>(x: T, n: nat)
    ensures multiset(Repeat(x, n)) == multiset{}[x := n]
  {
    if n > 0 {
      RepeatMultiset(x, n - 1);
      assert multiset(Repeat(x, n)) == multiset(Repeat(x, n - 1)) + multiset{x};
    }
  }

  /** Appending `n` copies of `x` raises the count of `x` by `n` and leaves every other count alone. */
  lemma RepeatCount<T(!new)>(s: seq<T>, x: T, n: nat)
    ensures multiset(s + Repeat(x, n))[x] == multiset(s)[x] + n
    ensures forall y :: y != x ==> multiset(s + Repeat(x, n))[y] == multiset(s)[y]
  {
    RepeatMultiset(x, n);
    assert multiset(s + Repeat(x, n)) == multiset(s) + multiset(Repeat(x, n));
  }

  /** A set of which nothing is a member is empty. */
  lemma NoMemberMeansEmpty(s: set<int>)
    ensures (forall x :: x !in s) ==> s == {}
  {
    if forall x :: x !in s {
      assert forall x :: x in s <==> x in {};
    }
  }

  /** A non-empty set has a member to pick, as iterating a non-empty `HashSet` yields one. */
  lemma NonEmptyHasMember(s: set<int>)
    ensures s != {} ==> exists x :: x in s
  {
    NoMemberMeansEmpty(s);
  }

  /** A proper subset (missing at least `x`) is strictly smaller. */
  lemma SubsetCardinality(small: set<int>, big: set<int>, x: int)
    requires small <= big && x in big && x !in small
    ensures |small| < |big|
  {
    assert big == small + (big - small);
    assert x in big - small;
  }
}

=== FILE: instance.dfy ===
/**
 The clause store of a SAT instance (src/solver/sat/SATInstance.java): the
 header counts, the set of variables, the list of clauses and the occurrence
 index from a variable to the clauses holding one of its literals.

 `Clause` does not override `equals`, so the Java lists find and remove
 clauses by object identity. Here every clause object carries a `ClauseId`,
 the clause list holds `ClauseRef`s and the index holds identities only.
 */
module Instances {
  import opened Wrappers
  import opened Clauses
  import opened Collections

  /** The identity of a Java `Clause` object. */
  type ClauseId = nat

  /** A reference to a clause object: its identity and its contents. */
  datatype ClauseRef = ClauseRef(id: ClauseId, clause: Clause)

  datatype SatInstance = SatInstance(
    numVars: int,
    numClauses: int,
    vars: set<int>,
    clauses: seq<ClauseRef>,
    index: map<int, seq<ClauseId>>)

  /** The list the index holds for `v`, or the empty list when `v` has no entry. */
  function Indexed(index: map<int, seq<ClauseId>>, v: int): seq<ClauseId>
  {
    if v in index then index[v] else []
  }

  ghost predicate DistinctIds(cs: seq<ClauseRef>)
  {
    forall i, j :: 0 <= i < j < |cs| ==> cs[i].id != cs[j].id
  }

  ghost predicate Stored(cs: seq<ClauseRef>, id: ClauseId)
  {
    exists i :: 0 <= i < |cs| && cs[i].id == id
  }

  /** The clause object with identity `id` that a list holds, if it holds one (the first such). */
  function Find(cs: seq<ClauseRef>, id: ClauseId): (r: Option<Clause>)
    ensures r.None? <==> !Stored(cs, id)
    ensures r.Some? ==> exists i :: 0 <= i < |cs| && cs[i] == ClauseRef(id, r.value)
    ensures DistinctIds(cs) ==> forall i :: 0 <= i < |cs| && cs[i].id == id ==> r == Some(cs[i].clause)
  {
    if cs == [] then None
    else if cs[0].id == id then Some(cs[0].clause)
    else
      var r := Find(cs[1..], id);
      assert forall i :: 1 <= i < |cs| ==> cs[i] == cs[1..][i - 1];
      r
  }

  /** How many times the index should list clause `id` under variable `v`. */
  ghost function Expected(cs: seq<ClauseRef>, id: ClauseId, v: int): nat
  {
    match Find(cs, id)
    case None => 0
    case Some(c) => Occurrences(c.literals, v)
  }

  /**
   The occurrence-index invariant: clause identities are distinct, no
   variable is mapped to an empty list, and the list of every variable `v`
   holds clause `id` exactly as many times as that clause has literals of `v`
   (a clause holding both `v` and `-v` is listed twice).
   */
  ghost predicate IndexInvariant(inst: SatInstance)
  {
    && DistinctIds(inst.clauses)
    && (forall v :: v in inst.index ==> inst.index[v] != [])
    && (forall v, id :: multiset(Indexed(inst.index, v))[id] == Expected(inst.clauses, id, v))
  }

  /** Under the invariant, a clause is listed under `v` exactly when it is stored and has a literal of `v`. */
  lemma IndexedIff(inst: SatInstance, v: int, id: ClauseId)
    requires IndexInvariant(inst)
    ensures id in Indexed(inst.index, v) <==>
      exists i :: 0 <= i < |inst.clauses| && inst.clauses[i].id == id && Occurrences(inst.clauses[i].clause.literals, v) > 0
  {
    assert id in Indexed(inst.index, v) <==> multiset(Indexed(inst.index, v))[id] > 0;
    if id in Indexed(inst.index, v) {
      var i :| 0 <= i < |inst.clauses| && inst.clauses[i] == ClauseRef(id, Find(inst.clauses, id).value);
      assert Occurrences(inst.clauses[i].clause.literals, v) > 0;
    }
  }

  lemma IndexedIffAll(inst: SatInstance, v: int)
    ensures IndexInvariant(inst) ==> forall id :: id in Indexed(inst.index, v) <==>
      exists i :: 0 <= i < |inst.clauses| && inst.clauses[i].id == id && Occurrences(inst.clauses[i].clause.literals, v) > 0
  {
    if IndexInvariant(inst) {
      forall id {
        IndexedIff(inst, v, id);
      }
    }
  }

  /** `new SATInstance(numVars, numClauses)`: no variables, no clauses, an empty index. */
  function EmptyInstance(numVars: int, numClauses: int): (r: SatInstance)
    ensures r.numVars == numVars && r.numClauses == numClauses
    ensures r.vars == {} && r.clauses == []
    ensures forall v :: Indexed(r.index, v) == []
    ensures IndexInvariant(r)
  {
    SatInstance(numVars, numClauses, {}, [], map[])
  }

  /**
   `getClausesContaining(v)`: the indexed list, or an empty list when `v` has
   no entry; under the invariant it lists exactly the stored clauses that have
   a literal of `v`.
   */
  function GetClausesContaining(inst: SatInstance, v: int): (r: seq<ClauseId>)
    ensures v !in inst.index ==> r == []
    ensures IndexInvariant(inst) ==> forall id :: id in r <==>
      exists i :: 0 <= i < |inst.clauses| && inst.clauses[i].id == id && Occurrences(inst.clauses[i].clause.literals, v) > 0
  {
    IndexedIffAll(inst, v);
    Indexed(inst.index, v)
  }

  /** `addVariable(literal)`: records the variable of the literal, whatever its sign. */
  function AddVariable(inst: SatInstance, literal: int): (r: SatInstance)
    ensures r.vars == inst.vars + {Abs(literal)}
    ensures r == inst.(vars := r.vars)
  {
    inst.(vars := inst.vars + {if literal < 0 then -1 * literal else literal})
  }

  /** Adding a literal and then its negation records a single variable. */
  lemma AddVariableBothSigns(inst: SatInstance, literal: int)
    ensures AddVariable(AddVariable(inst, literal), -literal) == AddVariable(inst, literal)
    ensures |AddVariable(inst, literal).vars| <= |inst.vars| + 1
  {
  }

  /** `r` is `cs` with the entry at `k`, the first with identity `id`, cut out and the rest in order. */
  ghost predicate RemovedIdAt(cs: seq<ClauseRef>, id: ClauseId, k: int, r: seq<ClauseRef>)
  {
    0 <= k < |cs| && cs[k].id == id && !Stored(cs[..k], id) && r == cs[..k] + cs[k + 1..]
  }

  /** `clauses.remove(clause)`: drops the first entry with identity `id`. */
  function RemoveFirstId(cs: seq<ClauseRef>, id: ClauseId): (r: seq<ClauseRef>)
    ensures forall e :: e in r ==> e in cs
    ensures !Stored(cs, id) ==> r == cs
    ensures forall x :: x != id ==> Find(r, x) == Find(cs, x)
    ensures DistinctIds(cs) ==> DistinctIds(r) && !Stored(r, id)
  {
    if cs == [] then []
    else if cs[0].id == id then
      assert forall i :: 1 <= i < |cs| ==> cs[i] == cs[1..][i - 1];
      cs[1..]
    else
      var rest := RemoveFirstId(cs[1..], id);
      assert forall i :: 1 <= i < |cs| ==> cs[i] == cs[1..][i - 1];
      ConsDistinct(cs, rest);
      [cs[0]] + rest
  }

  /**
   `clauses.remove(clause)` removes the FIRST entry with identity `id` and
   keeps every other entry in its order.
   */
  lemma {:induction false} RemoveFirstIdSplits(cs: seq<ClauseRef>, id: ClauseId)
    ensures Stored(cs, id) ==> exists k :: RemovedIdAt(cs, id, k, RemoveFirstId(cs, id))
  {
    if cs != [] {
      if cs[0].id == id {
        assert RemoveFirstId(cs, id) == cs[1..] == cs[..0] + cs[1..];
        assert RemovedIdAt(cs, id, 0, cs[1..]);
      } else {
        var rest := RemoveFirstId(cs[1..], id);
        assert RemoveFirstId(cs, id) == [cs[0]] + rest;
        RemoveFirstIdSplits(cs[1..], id);
        RemovedIdAtCons(cs, id, rest);
      }
    }
  }

  /** An identity is stored in a list with a head in front iff it is the head's or stored in the rest. */
  lemma StoredCons(head: ClauseRef, tail: seq<ClauseRef>, id: ClauseId)
    ensures Stored([head] + tail, id) <==> head.id == id || Stored(tail, id)
  {
    var l := [head] + tail;
    if Stored(l, id) && head.id != id {
      var j :| 0 <= j < |l| && l[j].id == id;
      assert l[0] == head;
      assert tail[j - 1].id == id;
    }
    if head.id == id {
      assert l[0].id == id;
    }
    if Stored(tail, id) {
      var j :| 0 <= j < |tail| && tail[j].id == id;
      assert l[j + 1].id == id;
    }
  }

  /** Cutting the first entry of `id` out of the tail, behind a head of another identity, cuts the first one out of the list. */
  lemma RemovedIdAtCons(cs: seq<ClauseRef>, id: ClauseId, rest: seq<ClauseRef>)
    requires cs != [] && cs[0].id != id
    requires Stored(cs[1..], id) ==> exists k :: RemovedIdAt(cs[1..], id, k, rest)
    ensures Stored(cs, id) ==> exists k :: RemovedIdAt(cs, id, k, [cs[0]] + rest)
  {
    if Stored(cs, id) {
      assert Stored(cs[1..], id) by {
        var j :| 0 <= j < |cs| && cs[j].id == id;
        assert cs[1..][j - 1].id == id;
      }
      var k :| RemovedIdAt(cs[1..], id, k, rest);
      assert cs[..k + 1] == [cs[0]] + cs[1..][..k];
      assert cs[k + 2..] == cs[1..][k + 1..];
      StoredCons(cs[0], cs[1..][..k], id);
      assert RemovedIdAt(cs, id, k + 1, [cs[0]] + rest);
    }
  }

  /** Putting the head of a list with distinct identities in front of a sub-collection of its tail keeps them distinct. */
  lemma ConsDistinct(cs: seq<ClauseRef>, rest: seq<ClauseRef>)
    requires cs != []
    requires forall e :: e in rest ==> e in cs[1..]
    ensures DistinctIds(cs) && DistinctIds(rest) ==> DistinctIds([cs[0]] + rest)
  {
    if DistinctIds(cs) && DistinctIds(rest) {
      var r := [cs[0]] + rest;
      forall i, j | 0 <= i < j < |r| ensures r[i].id != r[j].id {
        assert r[j] == rest[j - 1];
        if i > 0 {
          assert r[i] == rest[i - 1];
        } else {
          assert rest[j - 1] in cs[1..];
          var m :| 0 <= m < |cs[1..]| && cs[1..][m] == rest[j - 1];
          assert cs[m + 1] == rest[j - 1];
        }
      }
    }
  }

  /**
   `removeFromVariableToClauses(v, clause)`: removes the first listing of the
   clause under `v`, and deletes the entry of `v` when its list becomes empty;
   a variable without an entry is left alone.
   */
  function RemoveFromVariableToClauses(inst: SatInstance, v: int, id: ClauseId): (r: SatInstance)
    ensures v !in inst.index ==> r == inst
    ensures r == inst.(index := r.index)
    ensures Indexed(r.index, v) == RemoveFirst(Indexed(inst.index, v), id)
    ensures v in r.index <==> v in inst.index && Indexed(r.index, v) != []
    ensures forall w :: w != v ==> (w in r.index <==> w in inst.index) && Indexed(r.index, w) == Indexed(inst.index, w)
  {
    if v in inst.index then
      var rest := RemoveFirst(inst.index[v], id);
      if rest == [] then inst.(index := inst.index - {v})
      else inst.(index := inst.index[v := rest])
    else inst
  }

  /**
   `addClause(clause)`: appends the clause and lists it under the variable of
   each of its literals, creating an entry only for a variable it adds to.
   */
  method AddClause(inst: SatInstance, ref: ClauseRef) returns (r: SatInstance)
    ensures r.clauses == inst.clauses + [ref]
    ensures r == inst.(clauses := r.clauses, index := r.index)
    ensures forall v :: Indexed(r.index, v) == Indexed(inst.index, v) + Repeat(ref.id, Occurrences(ref.clause.literals, v))
    ensures forall v :: v in r.index <==> v in inst.index || Occurrences(ref.clause.literals, v) > 0
    ensures IndexInvariant(inst) && !Stored(inst.clauses, ref.id) ==> IndexInvariant(r)
  {
    var index := ListUnderVariables(inst.index, ref.id, ref.clause.literals);
    r := inst.(clauses := inst.clauses + [ref], index := index);
    if IndexInvariant(inst) && !Stored(inst.clauses, ref.id) {
      AddClausePreservesInvariant(inst, ref, r);
    }
  }

  /** The loop of `addClause`: list `id` once under the variable of each literal. */
  method ListUnderVariables(index: map<int, seq<ClauseId>>, id: ClauseId, literals: set<int>) returns (r: map<int, seq<ClauseId>>)
    ensures ListedFor(index, r, id, literals)
  {
    r := index;
    var seen: set<int> := {};
    var rest := literals;
    while rest != {}
      invariant seen + rest == literals && seen !! rest
      invariant ListedFor(index, r, id, seen)
      decreases rest
    {
      NonEmptyHasMember(rest);
      var literal :| literal in rest;
      r := ListOne(index, r, id, seen, literal);
      seen := seen + {literal};
      rest := rest - {literal};
    }
    assert seen == literals;
  }

  /** `after` is `start` with `id` listed once more under the variable of each literal of `seen`. */
  ghost predicate ListedFor(start: map<int, seq<ClauseId>>, after: map<int, seq<ClauseId>>, id: ClauseId, seen: set<int>)
  {
    && (forall v :: Indexed(after, v) == Indexed(start, v) + Repeat(id, Occurrences(seen, v)))
    && (forall v :: v in after <==> v in start || Occurrences(seen, v) > 0)
  }

  /** One iteration of the loop of `addClause`: `putIfAbsent` then `add` on the literal's variable. */
  method ListOne(start: map<int, seq<ClauseId>>, index: map<int, seq<ClauseId>>, id: ClauseId, seen: set<int>, literal: int)
    returns (r: map<int, seq<ClauseId>>)
    requires literal !in seen
    requires ListedFor(start, index, id, seen)
    ensures ListedFor(start, r, id, seen + {literal})
  {
    r := index[Abs(literal) := Indexed(index, Abs(literal)) + [id]];
    AddStepLists(start, index, r, id, seen, literal);
    AddStepKeys(start, index, r, id, seen, literal);
  }

  /** One literal of `addClause`: the clause is listed once more under the literal's variable. */
  lemma AddStepLists(start: map<int, seq<ClauseId>>, before: map<int, seq<ClauseId>>, after: map<int, seq<ClauseId>>,
                     id: ClauseId, seen: set<int>, literal: int)
    requires literal !in seen
    requires forall v :: Indexed(before, v) == Indexed(start, v) + Repeat(id, Occurrences(seen, v))
    requires after == before[Abs(literal) := Indexed(before, Abs(literal)) + [id]]
    ensures forall v :: Indexed(after, v) == Indexed(start, v) + Repeat(id, Occurrences(seen + {literal}, v))
  {
    forall v ensures Indexed(after, v) == Indexed(start, v) + Repeat(id, Occurrences(seen + {literal}, v)) {
      AddStepAt(Indexed(start, v), Indexed(before, v), Indexed(after, v), id, seen, literal, v);
    }
  }

  /** `AddStepLists` at one variable. */
  lemma AddStepAt(start: seq<ClauseId>, before: seq<ClauseId>, after: seq<ClauseId>,
                  id: ClauseId, seen: set<int>, literal: int, v: int)
    requires literal !in seen
    requires before == start + Repeat(id, Occurrences(seen, v))
    requires after == if v == Abs(literal) then before + [id] else before
    ensures after == start + Repeat(id, Occurrences(seen + {literal}, v))
  {
    OccurrencesAdd(seen, literal, v);
    if v == Abs(literal) {
      var k := Occurrences(seen, v);
      assert Repeat(id, k + 1) == Repeat(id, k) + [id];
      assert after == (start + Repeat(id, k)) + [id];
    }
  }

  /** One literal of `addClause`: the literal's variable has a key afterwards, and no other key appears. */
  lemma AddStepKeys(start: map<int, seq<ClauseId>>, before: map<int, seq<ClauseId>>, after: map<int, seq<ClauseId>>,
                    id: ClauseId, seen: set<int>, literal: int)
    requires literal !in seen
    requires forall v :: v in before <==> v in start || Occurrences(seen, v) > 0
    requires after == before[Abs(literal) := Indexed(before, Abs(literal)) + [id]]
    ensures forall v :: v in after <==> v in start || Occurrences(seen + {literal}, v) > 0
  {
    forall v ensures v in after <==> v in start || Occurrences(seen + {literal}, v) > 0 {
      OccurrencesAdd(seen, literal, v);
    }
  }

  lemma AddClausePreservesInvariant(inst: SatInstance, ref: ClauseRef, r: SatInstance)
    requires IndexInvariant(inst)
    requires !Stored(inst.clauses, ref.id)
    requires r.clauses == inst.clauses + [ref]
    requires forall v :: Indexed(r.index, v) == Indexed(inst.index, v) + Repeat(ref.id, Occurrences(ref.clause.literals, v))
    requires forall v :: v in r.index <==> v in inst.index || Occurrences(ref.clause.literals, v) > 0
    ensures IndexInvariant(r)
  {
    forall i, j | 0 <= i < j < |r.clauses| ensures r.clauses[i].id != r.clauses[j].id {
      if j == |inst.clauses| {
        assert r.clauses[i] == inst.clauses[i];
      }
    }
    forall v | v in r.index ensures r.index[v] != [] {
      assert r.index[v] == Indexed(r.index, v);
      if v in inst.index {
        assert |Indexed(r.index, v)| >= |Indexed(inst.index, v)| > 0;
      }
    }
    forall v, id ensures multiset(Indexed(r.index, v))[id] == Expected(r.clauses, id, v) {
      var k := Occurrences(ref.clause.literals, v);
      RepeatCount(Indexed(inst.index, v), ref.id, k);
      FindAppend(inst.clauses, ref, id);
    }
  }

  lemma FindAppend(cs: seq<ClauseRef>, ref: ClauseRef, id: ClauseId)
    ensures Find(cs + [ref], id) == if Find(cs, id).Some? then Find(cs, id) else if ref.id == id then Some(ref.clause) else None
  {
    if cs != [] {
      assert (cs + [ref])[1..] == cs[1..] + [ref];
      FindAppend(cs[1..], ref, id);
    }
  }

  /**
   `removeClause(clause)`: removes the first entry of the clause from the list
   and, once per literal, one listing of the clause under that literal's
   variable.
   */
  method RemoveClause(inst: SatInstance, ref: ClauseRef) returns (r: SatInstance)
    ensures r.clauses == RemoveFirstId(inst.clauses, ref.id)
    ensures r == inst.(clauses := r.clauses, index := r.index)
    ensures forall v :: Indexed(r.index, v) == RemoveN(Indexed(inst.index, v), ref.id, Occurrences(ref.clause.literals, v))
    ensures forall v :: v in r.index <==> v in inst.index && (Occurrences(ref.clause.literals, v) == 0 || Indexed(r.index, v) != [])
    ensures IndexInvariant(inst) && SameObject(inst, ref) ==> IndexInvariant(r)
    ensures IndexInvariant(inst) && !Stored(inst.clauses, ref.id) ==> r == inst
  {
    r := Unlist(inst.(clauses := RemoveFirstId(inst.clauses, ref.id)), ref.id, ref.clause.literals);
    if IndexInvariant(inst) && SameObject(inst, ref) {
      RemoveClausePreservesInvariant(inst, ref, r);
    }
    if IndexInvariant(inst) && !Stored(inst.clauses, ref.id) {
      RemoveAbsentClause(inst, ref, r);
    }
  }

  /** The loop of `removeClause`: `removeFromVariableToClauses` for the variable of each literal. */
  method Unlist(inst: SatInstance, id: ClauseId, literals: set<int>) returns (r: SatInstance)
    ensures r == inst.(index := r.index)
    ensures UnlistedFor(inst.index, r.index, id, literals)
  {
    var index := inst.index;
    var seen: set<int> := {};
    var rest := literals;
    while rest != {}
      invariant seen + rest == literals && seen !! rest
      invariant UnlistedFor(inst.index, index, id, seen)
      decreases rest
    {
      NonEmptyHasMember(rest);
      var literal :| literal in rest;
      index := UnlistOne(inst.index, inst.(index := index), id, seen, literal);
      seen := seen + {literal};
      rest := rest - {literal};
    }
    assert seen == literals;
    r := inst.(index := index);
  }

  /** `after` is `start` with one listing of `id` gone per literal of `seen`, and no list left empty. */
  ghost predicate UnlistedFor(start: map<int, seq<ClauseId>>, after: map<int, seq<ClauseId>>, id: ClauseId, seen: set<int>)
  {
    && (forall v :: Indexed(after, v) == RemoveN(Indexed(start, v), id, Occurrences(seen, v)))
    && (forall v :: v in after <==> v in start && (Occurrences(seen, v) == 0 || Indexed(after, v) != []))
  }

  /** One iteration of the loop of `removeClause`. */
  method UnlistOne(start: map<int, seq<ClauseId>>, inst: SatInstance, id: ClauseId, seen: set<int>, literal: int)
    returns (r: map<int, seq<ClauseId>>)
    requires literal !in seen
    requires UnlistedFor(start, inst.index, id, seen)
    ensures UnlistedFor(start, r, id, seen + {literal})
  {
    r := RemoveFromVariableToClauses(inst, Abs(literal), id).index;
    RemoveStep(start, inst.index, r, id, seen, literal);
  }

  /** One literal of `removeClause`: one listing of the clause goes from the literal's variable. */
  lemma RemoveStep(start: map<int, seq<ClauseId>>, before: map<int, seq<ClauseId>>, after: map<int, seq<ClauseId>>,
                   id: ClauseId, seen: set<int>, literal: int)
    requires literal !in seen
    requires UnlistedFor(start, before, id, seen)
    requires Indexed(after, Abs(literal)) == RemoveFirst(Indexed(before, Abs(literal)), id)
    requires Abs(literal) in after <==> Abs(literal) in before && Indexed(after, Abs(literal)) != []
    requires forall w :: w != Abs(literal) ==> (w in after <==> w in before) && Indexed(after, w) == Indexed(before, w)
    ensures UnlistedFor(start, after, id, seen + {literal})
  {
    forall v ensures Indexed(after, v) == RemoveN(Indexed(start, v), id, Occurrences(seen + {literal}, v)) {
      OccurrencesAdd(seen, literal, v);
    }
    forall v ensures v in after <==> v in start && (Occurrences(seen + {literal}, v) == 0 || Indexed(after, v) != []) {
      OccurrencesAdd(seen, literal, v);
      if v == Abs(literal) && v in start && Indexed(after, v) != [] {
        assert Indexed(before, v) != [];
      }
    }
  }

  /** The reference names the object the list holds under its identity, if any (one identity, one object). */
  ghost predicate SameObject(inst: SatInstance, ref: ClauseRef)
  {
    Find(inst.clauses, ref.id).Some? ==> Find(inst.clauses, ref.id).value.literals == ref.clause.literals
  }

  lemma RemoveClausePreservesInvariant(inst: SatInstance, ref: ClauseRef, r: SatInstance)
    requires IndexInvariant(inst) && SameObject(inst, ref)
    requires r.clauses == RemoveFirstId(inst.clauses, ref.id)
    requires forall v :: Indexed(r.index, v) == RemoveN(Indexed(inst.index, v), ref.id, Occurrences(ref.clause.literals, v))
    requires forall v :: v in r.index <==> v in inst.index && (Occurrences(ref.clause.literals, v) == 0 || Indexed(r.index, v) != [])
    ensures IndexInvariant(r)
  {
    forall v | v in r.index ensures r.index[v] != [] {
      assert r.index[v] == Indexed(r.index, v);
      assert inst.index[v] == Indexed(inst.index, v);
    }
    forall v, id ensures multiset(Indexed(r.index, v))[id] == Expected(r.clauses, id, v) {
      if id == ref.id {
        assert Find(r.clauses, id).None?;
      }
    }
  }

  lemma RemoveAbsentClause(inst: SatInstance, ref: ClauseRef, r: SatInstance)
    requires IndexInvariant(inst) && !Stored(inst.clauses, ref.id)
    requires r == inst.(clauses := RemoveFirstId(inst.clauses, ref.id), index := r.index)
    requires forall v :: Indexed(r.index, v) == RemoveN(Indexed(inst.index, v), ref.id, Occurrences(ref.clause.literals, v))
    requires forall v :: v in r.index <==> v in inst.index && (Occurrences(ref.clause.literals, v) == 0 || Indexed(r.index, v) != [])
    ensures r == inst
  {
    forall v ensures Indexed(r.index, v) == Indexed(inst.index, v) {
      assert multiset(Indexed(inst.index, v))[ref.id] == 0;
      RemoveNAbsent(Indexed(inst.index, v), ref.id, Occurrences(ref.clause.literals, v));
    }
    forall v ensures v in r.index <==> v in inst.index {
      if v in inst.index {
        assert inst.index[v] == Indexed(inst.index, v);
      }
    }
    forall v | v in inst.index ensures r.index[v] == inst.index[v] {
      assert inst.index[v] == Indexed(inst.index, v);
      assert r.index[v] == Indexed(r.index, v);
    }
    assert r.index == inst.index;
  }

  lemma RemoveNAbsent(s: seq<ClauseId>, x: ClauseId, n: nat)
    requires x !in s
    ensures RemoveN(s, x, n) == s
  {
    if n > 0 {
      RemoveNAbsent(s, x, n - 1);
    }
  }

  /**
   The copy constructor `new SATInstance(other)`: the same counts and
   variables, a fresh clause object with an equal literal set for each clause
   in the same order, and an index rebuilt from scratch by `addClause`.
   */
  method CopyInstance(other: SatInstance) returns (r: SatInstance)
    ensures r.numVars == other.numVars && r.numClauses == other.numClauses && r.vars == other.vars
    ensures |r.clauses| == |other.clauses|
    ensures forall i :: 0 <= i < |r.clauses| ==> r.clauses[i].clause.literals == other.clauses[i].clause.literals
    ensures forall i :: 0 <= i < |r.clauses| ==> WatchesValid(r.clauses[i].clause)
    ensures IndexInvariant(r)
  {
    r := EmptyInstance(other.numVars, other.numClauses).(vars := other.vars);
    var i := 0;
    while i < |other.clauses|
      invariant 0 <= i <= |other.clauses|
      invariant CopiedPrefix(other, r, i)
      invariant IndexInvariant(r)
    {
      r := CopyOne(other, r, i);
      i := i + 1;
    }
  }

  /**
   `r` holds, under identities 0 to `n - 1`, a copy of each of the first `n`
   clauses of `other` with an equal literal set and valid watches, and the
   counts and variables of `other`.
   */
  ghost predicate CopiedPrefix(other: SatInstance, r: SatInstance, n: nat)
  {
    && r.numVars == other.numVars && r.numClauses == other.numClauses && r.vars == other.vars
    && n <= |other.clauses| && |r.clauses| == n
    && (forall j :: 0 <= j < n ==> r.clauses[j].id == j)
    && (forall j :: 0 <= j < n ==> r.clauses[j].clause.literals == other.clauses[j].clause.literals)
    && (forall j :: 0 <= j < n ==> WatchesValid(r.clauses[j].clause))
  }

  /** One iteration of the copy constructor's loop: `addClause(new Clause(clause))`. */
  method CopyOne(other: SatInstance, r: SatInstance, i: nat) returns (r': SatInstance)
    requires i < |other.clauses|
    requires CopiedPrefix(other, r, i) && IndexInvariant(r)
    ensures CopiedPrefix(other, r', i + 1) && IndexInvariant(r')
  {
    var c := CopyClause(other.clauses[i].clause);
    assert !Stored(r.clauses, i) by {
      forall j | 0 <= j < |r.clauses| ensures r.clauses[j].id != i {
        assert r.clauses[j].id == j;
      }
    }
    r' := AddClause(r, ClauseRef(i, c));
    assert forall j :: 0 <= j < i ==> r'.clauses[j] == r.clauses[j];
  }

}

=== FILE: solver.dfy ===
/**
 The DPLL search of src/solver/sat/DPLL.java: decide the unassigned variable
 with the most index entries, drop the clauses the decision satisfies, run
 the propagation hooks, and recurse on a copy of the instance and of the
 assignment map, trying `true` before `false`.

 `Clause.isUnit`, `Clause.getUnitLiteral` and the result of
 `propagateAssignments` come from code outside this model; they are passed
 in as an `Oracles` value and every property below holds whatever they
 return.
 */
module Solver {
  import opened Wrappers
  import opened Clauses
  import opened Instances
  import opened Collections

  /** The `Map<Integer, Boolean>` of assignments: a partial map from variables to values. */
  type Assignment = map<int, bool>

  /** The value a partial assignment gives a literal. */
  datatype Value = True | False | Unassigned

  function LiteralValue(a: Assignment, l: int): Value
  {
    if Abs(l) !in a then Unassigned
    else if a[Abs(l)] == (l > 0) then True
    else False
  }

  /** What `dpll` reports: `Sat` carries the assignment map it prints on success. */
  datatype Verdict = Sat(model: Assignment) | Unsat

  /**
   The behaviour this model does not see: `Clause.isUnit`,
   `Clause.getUnitLiteral`, and `propagateAssignments(instance, variable,
   assignments)`, which answers `false` when it finds a conflict.
   */
  datatype Oracles = Oracles(
    isUnit: Clause -> bool,
    unitLiteral: Clause -> int,
    propagate: (SatInstance, int, Assignment) -> bool)

  /** `b` keeps every assignment of `a`. */
  ghost predicate Extends(b: Assignment, a: Assignment)
  {
    forall x :: x in a ==> x in b && b[x] == a[x]
  }

  ghost predicate PositiveVariables(inst: SatInstance)
  {
    forall x :: x in inst.vars ==> x > 0
  }

  // ---------------------------------------------------------------------------
  // Clause satisfaction

  /** `isClauseSatisfiableWithCurrentAssignments`: some literal of the clause is true. */
  function IsClauseSatisfied(c: Clause, a: Assignment): (r: bool)
    ensures r <==> exists l :: l in c.literals && LiteralValue(a, l) == True
  {
    exists l :: l in c.literals && Abs(l) in a && a[Abs(l)] == (l > 0)
  }

  /** A satisfied clause stays satisfied when the assignment grows. */
  lemma SatisfactionPersists(c: Clause, a: Assignment, b: Assignment)
    requires Extends(b, a)
    requires IsClauseSatisfied(c, a)
    ensures IsClauseSatisfied(c, b)
  {
    var l :| l in c.literals && LiteralValue(a, l) == True;
    assert LiteralValue(b, l) == True;
  }

  /** `allLiteralsAssigned`: every literal of the clause has its variable assigned. */
  function AllLiteralsAssigned(c: Clause, a: Assignment): (r: bool)
    ensures r <==> forall l :: l in c.literals ==> LiteralValue(a, l) != Unassigned
  {
    forall l :: l in c.literals ==> Abs(l) in a
  }

  /** A clause whose literals are all assigned is either satisfied or conflicting (every literal false). */
  lemma AssignedClauseDecided(c: Clause, a: Assignment)
    requires AllLiteralsAssigned(c, a)
    ensures !IsClauseSatisfied(c, a) <==> forall l :: l in c.literals ==> LiteralValue(a, l) == False
  {
  }

  ghost predicate Satisfies(a: Assignment, cs: seq<ClauseRef>)
  {
    forall i :: 0 <= i < |cs| ==> IsClauseSatisfied(cs[i].clause, a)
  }

  /** The scan of `allClausesSatisfied` over a clause list, stopping at the first unsatisfied clause. */
  function AllSatisfied(cs: seq<ClauseRef>, a: Assignment): (r: bool)
    ensures r <==> Satisfies(a, cs)
  {
    if cs == [] then true
    else
      assert forall i :: 1 <= i < |cs| ==> cs[i] == cs[1..][i - 1];
      IsClauseSatisfied(cs[0].clause, a) && AllSatisfied(cs[1..], a)
  }

  /** `allClausesSatisfied`: every remaining clause of the instance is satisfied. */
  function AllClausesSatisfied(inst: SatInstance, a: Assignment): (r: bool)
    ensures r <==> Satisfies(a, inst.clauses)
  {
    AllSatisfied(inst.clauses, a)
  }

  // ---------------------------------------------------------------------------
  // Branching heuristic

  /** The occurrence count `chooseVariable` ranks variables by: the size of the variable's index list. */
  function Score(inst: SatInstance, v: int): nat
  {
    |GetClausesContaining(inst, v)|
  }

  /**
   `chooseVariable`: an unassigned variable of `vars` with no unassigned
   variable scoring strictly higher, or `None` when every variable of `vars`
   is assigned. `Stream.max` keeps the earlier of two equal scores, and the
   stream order of a `HashSet` is not specified, so any maximal variable may
   come out.
   */
  method ChooseVariable(inst: SatInstance, a: Assignment) returns (r: Option<int>)
    ensures r.None? <==> forall v :: v in inst.vars ==> v in a
    ensures r.Some? ==> r.value in inst.vars && r.value !in a
    ensures r.Some? ==> forall v :: v in inst.vars && v !in a ==> Score(inst, v) <= Score(inst, r.value)
  {
    r := None;
    var rest := inst.vars;
    while rest != {}
      invariant rest <= inst.vars
      invariant r.None? ==> forall v :: v in inst.vars && v !in rest ==> v in a
      invariant r.Some? ==> r.value in inst.vars && r.value !in a
      invariant r.Some? ==> forall v :: v in inst.vars && v !in rest && v !in a ==> Score(inst, v) <= Score(inst, r.value)
      decreases rest
    {
      NonEmptyHasMember(rest);
      var v :| v in rest;
      rest := rest - {v};
      if v !in a && (r.None? || Score(inst, v) > Score(inst, r.value)) {
        r := Some(v);
      }
    }
  }

  // ---------------------------------------------------------------------------
  // Assign and simplify

  /** The clauses of a list that do not contain `lit`, in their order: what assigning `lit` true leaves. */
  function WithoutLiteral(cs: seq<ClauseRef>, lit: int): (r: seq<ClauseRef>)
    ensures forall e :: e in r <==> e in cs && lit !in e.clause.literals
  {
    if cs == [] then []
    else
      assert forall i :: 1 <= i < |cs| ==> cs[i] == cs[1..][i - 1];
      (if lit in cs[0].clause.literals then [] else [cs[0]]) + WithoutLiteral(cs[1..], lit)
  }

  /** The entries of a list whose identity is not in `ids`, in their order. */
  function DropIds(cs: seq<ClauseRef>, ids: set<ClauseId>): seq<ClauseRef>
  {
    if cs == [] then []
    else (if cs[0].id in ids then [] else [cs[0]]) + DropIds(cs[1..], ids)
  }

  lemma {:induction false} DropNothing(cs: seq<ClauseRef>)
    ensures DropIds(cs, {}) == cs
  {
    if cs != [] {
      DropNothing(cs[1..]);
      assert [cs[0]] + cs[1..] == cs;
    }
  }

  lemma {:induction false} DropIdsAbsent(cs: seq<ClauseRef>, ids: set<ClauseId>, x: ClauseId)
    requires !Stored(cs, x)
    ensures DropIds(cs, ids + {x}) == DropIds(cs, ids)
  {
    if cs != [] {
      assert !Stored(cs[1..], x) by {
        assert forall i :: 1 <= i < |cs| ==> cs[i] == cs[1..][i - 1];
      }
      DropIdsAbsent(cs[1..], ids, x);
    }
  }

  /** Removing the first entry of one more identity from the dropped list drops that identity too. */
  lemma {:induction false} RemoveFirstOfDropped(cs: seq<ClauseRef>, ids: set<ClauseId>, x: ClauseId)
    requires DistinctIds(cs)
    ensures RemoveFirstId(DropIds(cs, ids), x) == DropIds(cs, ids + {x})
  {
    if cs != [] {
      var rest := cs[1..];
      assert forall i :: 0 <= i < |rest| ==> rest[i] == cs[i + 1];
      assert DistinctIds(rest);
      RemoveFirstOfDropped(rest, ids, x);
      var tail := DropIds(rest, ids);
      if cs[0].id in ids {
        assert DropIds(cs, ids) == tail;
      } else if cs[0].id == x {
        assert !Stored(rest, x);
        DropIdsAbsent(rest, ids, x);
        assert DropIds(cs, ids) == [cs[0]] + tail;
        assert ([cs[0]] + tail)[1..] == tail;
      } else {
        assert DropIds(cs, ids) == [cs[0]] + tail;
        assert ([cs[0]] + tail)[1..] == tail;
      }
    }
  }

  /** Looking a clause up in the dropped list finds it exactly when its identity was not dropped. */
  lemma {:induction false} FindDropped(cs: seq<ClauseRef>, ids: set<ClauseId>, x: ClauseId)
    ensures Find(DropIds(cs, ids), x) == if x in ids then None else Find(cs, x)
  {
    if cs != [] {
      var tail := DropIds(cs[1..], ids);
      FindDropped(cs[1..], ids, x);
      if cs[0].id !in ids {
        assert DropIds(cs, ids) == [cs[0]] + tail;
        assert ([cs[0]] + tail)[1..] == tail;
      } else {
        assert DropIds(cs, ids) == tail;
        assert cs[0].id != x ==> Find(cs, x) == Find(cs[1..], x);
      }
    }
  }

  /** Dropping exactly the identities of the clauses that contain `lit` leaves the clauses without it. */
  lemma {:induction false} DropIdsWithoutLiteral(cs: seq<ClauseRef>, ids: set<ClauseId>, lit: int)
    requires forall i :: 0 <= i < |cs| ==> (cs[i].id in ids <==> lit in cs[i].clause.literals)
    ensures DropIds(cs, ids) == WithoutLiteral(cs, lit)
  {
    if cs != [] {
      assert forall i :: 0 <= i < |cs[1..]| ==> cs[1..][i] == cs[i + 1];
      DropIdsWithoutLiteral(cs[1..], ids, lit);
    }
  }

  /** The clauses listed in `candidates` whose object contains `lit`. */
  ghost function Hits(cs: seq<ClauseRef>, candidates: seq<ClauseId>, lit: int): set<ClauseId>
  {
    set id | id in candidates && Find(cs, id).Some? && lit in Find(cs, id).value.literals
  }

  lemma HitsStep(cs: seq<ClauseRef>, candidates: seq<ClauseId>, i: nat, lit: int)
    requires i < |candidates|
    ensures Hits(cs, candidates[..i + 1], lit) ==
      Hits(cs, candidates[..i], lit) +
      (if Find(cs, candidates[i]).Some? && lit in Find(cs, candidates[i]).value.literals then {candidates[i]} else {})
  {
    assert candidates[..i + 1] == candidates[..i] + [candidates[i]];
  }

  /** Removing a listed clause from the list left so far drops one more identity, and the object removed is the one stored. */
  lemma RemovalStep(cs: seq<ClauseRef>, hits: set<ClauseId>, r: SatInstance, id: ClauseId, clause: Clause)
    requires DistinctIds(cs)
    requires r.clauses == DropIds(cs, hits)
    requires Find(cs, id) == Some(clause)
    ensures SameObject(r, ClauseRef(id, clause))
    ensures RemoveFirstId(r.clauses, id) == DropIds(cs, hits + {id})
  {
    FindDropped(cs, hits, id);
    RemoveFirstOfDropped(cs, hits, id);
  }

  /** The index lists every clause holding `lit` under its variable, so dropping the hits drops exactly those clauses. */
  lemma AllHits(inst: SatInstance, candidates: seq<ClauseId>, lit: int)
    requires IndexInvariant(inst)
    requires candidates == GetClausesContaining(inst, Abs(lit))
    ensures DropIds(inst.clauses, Hits(inst.clauses, candidates, lit)) == WithoutLiteral(inst.clauses, lit)
  {
    var cs := inst.clauses;
    forall k | 0 <= k < |cs|
      ensures cs[k].id in Hits(cs, candidates, lit) <==> lit in cs[k].clause.literals
    {
      assert Find(cs, cs[k].id) == Some(cs[k].clause);
      if lit in cs[k].clause.literals {
        OccursOfMember(cs[k].clause.literals, lit);
      }
    }
    DropIdsWithoutLiteral(cs, Hits(cs, candidates, lit), lit);
  }

  /**
   `assignVariable(variable, value, instance, assignments)`: records the
   value, then removes every clause listed under the variable that contains
   the literal the value makes true (`variable` for `true`, `-variable` for
   `false`). The result keeps exactly the other clauses, in order.
   */
  method AssignVariable(variable: int, value: bool, inst: SatInstance, a: Assignment)
    returns (r: SatInstance, updated: Assignment)
    requires IndexInvariant(inst)
    ensures variable in updated && updated[variable] == value
    ensures forall x :: x != variable ==> (x in updated <==> x in a) && (x in a ==> updated[x] == a[x])
    ensures r.clauses == WithoutLiteral(inst.clauses, if value then variable else -variable)
    ensures r == inst.(clauses := r.clauses, index := r.index)
    ensures IndexInvariant(r)
  {
    updated := a[variable := value];
    ghost var lit := if value then variable else -variable;
    var candidates := GetClausesContaining(inst, Abs(variable));
    r := inst;
    var i := 0;
    assert Hits(inst.clauses, candidates[..0], lit) == {};
    DropNothing(inst.clauses);
    while i < |candidates|
      invariant 0 <= i <= |candidates|
      invariant Simplifying(inst, r, candidates[..i], lit)
    {
      r := RemoveIfSatisfied(variable, value, inst, r, candidates, i);
      i := i + 1;
    }
    assert candidates[..|candidates|] == candidates;
    AllHits(inst, candidates, lit);
  }

  /**
   The state of the loop of `assignVariable` after visiting `visited`: the
   instance with exactly the visited clauses holding `lit` removed, index
   invariant intact.
   */
  ghost predicate Simplifying(inst: SatInstance, r: SatInstance, visited: seq<ClauseId>, lit: int)
  {
    && r == inst.(clauses := r.clauses, index := r.index)
    && IndexInvariant(r)
    && r.clauses == DropIds(inst.clauses, Hits(inst.clauses, visited, lit))
  }

  /** One iteration of the loop of `assignVariable`: remove the visited clause when it holds the literal made true. */
  method RemoveIfSatisfied(variable: int, value: bool, inst: SatInstance, r: SatInstance, candidates: seq<ClauseId>, i: nat)
    returns (r': SatInstance)
    requires i < |candidates|
    requires Simplifying(inst, r, candidates[..i], if value then variable else -variable)
    requires DistinctIds(inst.clauses)
    ensures Simplifying(inst, r', candidates[..i + 1], if value then variable else -variable)
  {
    ghost var lit := if value then variable else -variable;
    var id := candidates[i];
    ghost var hits := Hits(inst.clauses, candidates[..i], lit);
    HitsStep(inst.clauses, candidates, i, lit);
    r' := r;
    match Find(inst.clauses, id) {
      case Some(clause) =>
        if (value && Contains(clause, variable)) || (!value && Contains(clause, -variable)) {
          RemovalStep(inst.clauses, hits, r, id, clause);
          r' := RemoveClause(r, ClauseRef(id, clause));
          assert Hits(inst.clauses, candidates[..i + 1], lit) == hits + {id};
        } else {
          assert Hits(inst.clauses, candidates[..i + 1], lit) == hits;
        }
      case None =>
        assert Hits(inst.clauses, candidates[..i + 1], lit) == hits;
    }
  }

  // ---------------------------------------------------------------------------
  // Unit propagation (with `propagateAssignments` as an oracle)

  /** `c` is a clause object of the list that the oracle calls unit. */
  ghost predicate IsUnitClauseOf(cs: seq<ClauseRef>, c: Clause, o: Oracles)
  {
    o.isUnit(c) && exists i :: 0 <= i < |cs| && cs[i].clause == c
  }

  /** The filter of `propagateUnitClauses`: the unit clauses whose unit literal's variable is unassigned, in order. */
  function SelectUnits(cs: seq<ClauseRef>, a: Assignment, o: Oracles): (r: seq<Clause>)
    ensures forall c :: c in r ==> IsUnitClauseOf(cs, c, o) && Abs(o.unitLiteral(c)) !in a
    ensures forall i :: 0 <= i < |cs| && o.isUnit(cs[i].clause) && Abs(o.unitLiteral(cs[i].clause)) !in a ==> cs[i].clause in r
  {
    if cs == [] then []
    else
      assert forall i :: 1 <= i < |cs| ==> cs[i] == cs[1..][i - 1];
      var head := if o.isUnit(cs[0].clause) && Abs(o.unitLiteral(cs[0].clause)) !in a then [cs[0].clause] else [];
      var r := head + SelectUnits(cs[1..], a, o);
      assert forall c :: c in r ==> c in head || c in SelectUnits(cs[1..], a, o);
      r
  }

  /** The variables of the unit literals of some clauses. */
  function UnitVariablesOf(units: seq<Clause>, o: Oracles): set<int>
  {
    set c | c in units :: Abs(o.unitLiteral(c))
  }

  datatype Propagation = Propagation(ok: bool, assignments: Assignment)

  /**
   The inner loop of `propagateUnitClauses`: each selected unit literal's
   variable is set to the value that makes that literal true, so a later
   unit on the same variable overwrites an earlier one; `propagateAssignments`
   runs after each, and the first conflict it reports stops the pass.
   */
  function AssignUnits(inst: SatInstance, a: Assignment, units: seq<Clause>, o: Oracles): (r: Propagation)
    ensures a.Keys <= r.assignments.Keys <= a.Keys + UnitVariablesOf(units, o)
    ensures r.ok ==> UnitVariablesOf(units, o) <= r.assignments.Keys
    ensures forall x :: x in a && x !in UnitVariablesOf(units, o) ==> r.assignments[x] == a[x]
    ensures forall x :: x in r.assignments && !(x in a && r.assignments[x] == a[x]) ==>
      exists c :: c in units && Abs(o.unitLiteral(c)) == x && r.assignments[x] == (o.unitLiteral(c) > 0)
    ensures !r.ok ==> exists x :: x in UnitVariablesOf(units, o) && x in r.assignments && !o.propagate(inst, x, r.assignments)
    decreases |units|
  {
    if units == [] then Propagation(true, a)
    else
      var literal := o.unitLiteral(units[0]);
      var next := a[Abs(literal) := literal > 0];
      UnitVariablesCons(units, o);
      if !o.propagate(inst, Abs(literal), next) then
        Propagation(false, next)
      else
        AssignUnits(inst, next, units[1..], o)
  }

  /** The unit variables of a list are the first unit's variable and those of the rest. */
  lemma UnitVariablesCons(units: seq<Clause>, o: Oracles)
    requires units != []
    ensures UnitVariablesOf(units, o) == {Abs(o.unitLiteral(units[0]))} + UnitVariablesOf(units[1..], o)
  {
    assert units[0] in units;
    assert forall c :: c in units[1..] ==> c in units;
    assert forall c :: c in units ==> c == units[0] || c in units[1..];
  }

  /**
   The map a pass has built from `a` once it has assigned the first `n` unit
   literals of `units`, each set true in turn.
   */
  ghost function Prefix(a: Assignment, units: seq<Clause>, n: nat, o: Oracles): Assignment
    requires n <= |units|
  {
    if n == 0 then a
    else
      var literal := o.unitLiteral(units[n - 1]);
      Prefix(a, units, n - 1, o)[Abs(literal) := literal > 0]
  }

  /** The `k`-th call of `propagateAssignments` in a pass, on the map built up to that unit, reports no conflict. */
  ghost predicate QueryOk(inst: SatInstance, a: Assignment, units: seq<Clause>, k: nat, o: Oracles)
    requires k < |units|
  {
    o.propagate(inst, Abs(o.unitLiteral(units[k])), Prefix(a, units, k + 1, o))
  }

  /**
   The pass stops at the `k`-th unit holding `m`: `m` is the map built up to
   that unit, its call reports a conflict, and no earlier call did.
   */
  ghost predicate StopsAt(inst: SatInstance, a: Assignment, units: seq<Clause>, o: Oracles, k: nat, m: Assignment)
    requires k < |units|
  {
    m == Prefix(a, units, k + 1, o) && !QueryOk(inst, a, units, k, o) &&
    forall j :: 0 <= j < k ==> QueryOk(inst, a, units, j, o)
  }

  /**
   What one pass over `units` answers: it succeeds iff no call of
   `propagateAssignments` it makes reports a conflict, and then holds the map
   with every unit assigned; otherwise it stops at the first call that
   reports one, holding the map as built up to that unit.
   */
  ghost predicate PassOutcome(inst: SatInstance, a: Assignment, units: seq<Clause>, o: Oracles, r: Propagation)
  {
    && (r.ok <==> forall k :: 0 <= k < |units| ==> QueryOk(inst, a, units, k, o))
    && (r.ok ==> r.assignments == Prefix(a, units, |units|, o))
    && (!r.ok ==> exists k :: 0 <= k < |units| && StopsAt(inst, a, units, o, k, r.assignments))
  }

  /** Building the map over `units` equals assigning the first unit and then building over the rest. */
  lemma {:induction false} PrefixShift(a: Assignment, units: seq<Clause>, n: nat, o: Oracles)
    requires 1 <= n <= |units|
    ensures Prefix(a, units, n, o) == Prefix(Prefix(a, units, 1, o), units[1..], n - 1, o)
  {
    if n > 1 {
      PrefixShift(a, units, n - 1, o);
      assert units[1..][n - 2] == units[n - 1];
    }
  }

  /** The `k+1`-th call of a pass is the `k`-th call of the pass over the rest, from the map after the first unit. */
  lemma QueryShift(inst: SatInstance, a: Assignment, units: seq<Clause>, k: nat, o: Oracles)
    requires k + 1 < |units|
    ensures Prefix(a, units, k + 2, o) == Prefix(Prefix(a, units, 1, o), units[1..], k + 1, o)
    ensures QueryOk(inst, a, units, k + 1, o) == QueryOk(inst, Prefix(a, units, 1, o), units[1..], k, o)
  {
    PrefixShift(a, units, k + 2, o);
    assert units[k + 1] == units[1..][k];
  }

  /** `AssignUnits` answers exactly as the calls of `propagateAssignments` on the maps the loop builds decide. */
  lemma {:induction false} AssignUnitsPinned(inst: SatInstance, a: Assignment, units: seq<Clause>, o: Oracles)
    ensures PassOutcome(inst, a, units, o, AssignUnits(inst, a, units, o))
    decreases |units|
  {
    if units != [] {
      var literal := o.unitLiteral(units[0]);
      var next := a[Abs(literal) := literal > 0];
      assert Prefix(a, units, 1, o) == next;
      var r := AssignUnits(inst, a, units, o);
      if !o.propagate(inst, Abs(literal), next) {
        assert r == Propagation(false, next);
        assert StopsAt(inst, a, units, o, 0, r.assignments);
      } else {
        assert r == AssignUnits(inst, next, units[1..], o);
        AssignUnitsPinned(inst, next, units[1..], o);
        PinnedStep(inst, a, units, o, r);
      }
    }
  }

  /** A pass whose first call reports no conflict answers as the pass over the remaining units does. */
  lemma PinnedStep(inst: SatInstance, a: Assignment, units: seq<Clause>, o: Oracles, r: Propagation)
    requires units != [] && QueryOk(inst, a, units, 0, o)
    requires PassOutcome(inst, Prefix(a, units, 1, o), units[1..], o, r)
    ensures PassOutcome(inst, a, units, o, r)
  {
    var next, tail := Prefix(a, units, 1, o), units[1..];
    forall k | 0 <= k < |tail|
      ensures Prefix(a, units, k + 2, o) == Prefix(next, tail, k + 1, o)
      ensures QueryOk(inst, a, units, k + 1, o) == QueryOk(inst, next, tail, k, o)
    {
      QueryShift(inst, a, units, k, o);
    }
    if r.ok {
      PrefixShift(a, units, |units|, o);
      forall k | 0 <= k < |units| ensures QueryOk(inst, a, units, k, o) {
        if k > 0 {
          assert QueryOk(inst, next, tail, k - 1, o);
        }
      }
    } else {
      var k :| 0 <= k < |tail| && StopsAt(inst, next, tail, o, k, r.assignments);
      forall j | 0 <= j < k + 1 ensures QueryOk(inst, a, units, j, o) {
        if j > 0 {
          assert QueryOk(inst, next, tail, j - 1, o);
        }
      }
      assert StopsAt(inst, a, units, o, k + 1, r.assignments);
    }
  }

  /**
   Every variable `b` assigns beyond `a` is set so that the unit literal of
   some unit clause of the list is true.
   */
  ghost predicate Forced(cs: seq<ClauseRef>, o: Oracles, a: Assignment, b: Assignment)
  {
    forall x :: x in b && x !in a ==>
      exists c :: IsUnitClauseOf(cs, c, o) && Abs(o.unitLiteral(c)) == x && b[x] == (o.unitLiteral(c) > 0)
  }

  /** The unit variables a pass assigns are all unassigned before it. */
  lemma SelectedFresh(cs: seq<ClauseRef>, a: Assignment, o: Oracles)
    ensures forall x :: x in a ==> x !in UnitVariablesOf(SelectUnits(cs, a, o), o)
  {
    var units := SelectUnits(cs, a, o);
    forall x | x in UnitVariablesOf(units, o) ensures x !in a {
      var c :| c in units && Abs(o.unitLiteral(c)) == x;
    }
  }

  /** One pass of `propagateUnitClauses` keeps every assignment it starts from. */
  lemma PassExtends(inst: SatInstance, a: Assignment, o: Oracles)
    ensures Extends(AssignUnits(inst, a, SelectUnits(inst.clauses, a, o), o).assignments, a)
  {
    SelectedFresh(inst.clauses, a, o);
  }

  /** Every assignment one pass of `propagateUnitClauses` adds is forced by a selected unit clause. */
  lemma PassForced(inst: SatInstance, a: Assignment, o: Oracles)
    ensures Forced(inst.clauses, o, a, AssignUnits(inst, a, SelectUnits(inst.clauses, a, o), o).assignments)
  {
    var units := SelectUnits(inst.clauses, a, o);
    var b := AssignUnits(inst, a, units, o).assignments;
    forall x | x in b && x !in a
      ensures exists c :: IsUnitClauseOf(inst.clauses, c, o) && Abs(o.unitLiteral(c)) == x && b[x] == (o.unitLiteral(c) > 0)
    {
      var c :| c in units && Abs(o.unitLiteral(c)) == x && b[x] == (o.unitLiteral(c) > 0);
      assert IsUnitClauseOf(inst.clauses, c, o);
    }
  }

  /**
   After a successful pass no unit clause is pending: every unit variable the
   pass selected is assigned, and the rest were assigned before it. The
   oracles see the same clause values in every pass, so the second filter of
   the do-while finds nothing and the loop ends after this pass.
   */
  lemma NothingPending(inst: SatInstance, a: Assignment, o: Oracles)
    requires AssignUnits(inst, a, SelectUnits(inst.clauses, a, o), o).ok
    ensures SelectUnits(inst.clauses, AssignUnits(inst, a, SelectUnits(inst.clauses, a, o), o).assignments, o) == []
  {
    var units := SelectUnits(inst.clauses, a, o);
    var pass := AssignUnits(inst, a, units, o);
    forall i | 0 <= i < |inst.clauses| && o.isUnit(inst.clauses[i].clause)
      ensures Abs(o.unitLiteral(inst.clauses[i].clause)) in pass.assignments
    {
      var c := inst.clauses[i].clause;
      if Abs(o.unitLiteral(c)) !in a {
        assert c in units;
        assert Abs(o.unitLiteral(c)) in UnitVariablesOf(units, o);
      }
    }
    NoneSelected(inst.clauses, pass.assignments, o);
  }

  /** Once every unit clause's variable is assigned, the filter selects nothing. */
  lemma {:induction false} NoneSelected(cs: seq<ClauseRef>, b: Assignment, o: Oracles)
    requires forall i :: 0 <= i < |cs| && o.isUnit(cs[i].clause) ==> Abs(o.unitLiteral(cs[i].clause)) in b
    ensures SelectUnits(cs, b, o) == []
  {
    if cs != [] {
      assert forall i :: 0 <= i < |cs[1..]| ==> cs[1..][i] == cs[i + 1];
      NoneSelected(cs[1..], b, o);
    }
  }

  /**
   `propagateUnitClauses`: repeats passes while some unit clause has an
   unassigned unit variable; by `NothingPending` the first successful pass
   already leaves none. It never removes or changes an assignment it was
   given; every variable it assigns is set so that the unit literal of some
   unit clause is true; it answers `false` only when `propagateAssignments`
   reported a conflict on a variable it assigned itself, and on `true` every
   unit clause's variable is assigned. With no unit clause pending it answers
   `true` and leaves the map as it is. Its answer is that of one pass over the
   selected unit clauses (`PassOutcome`).
   */
  function PropagateUnitClauses(inst: SatInstance, a: Assignment, o: Oracles): (r: Propagation)
    ensures Extends(r.assignments, a)
    ensures Forced(inst.clauses, o, a, r.assignments)
    ensures !r.ok ==> exists x :: x !in a && x in r.assignments && !o.propagate(inst, x, r.assignments)
    ensures r.ok ==> forall i :: 0 <= i < |inst.clauses| && o.isUnit(inst.clauses[i].clause) ==>
      Abs(o.unitLiteral(inst.clauses[i].clause)) in r.assignments
    ensures SelectUnits(inst.clauses, a, o) == [] ==> r == Propagation(true, a)
    ensures PassOutcome(inst, a, SelectUnits(inst.clauses, a, o), o, r)
  {
    var units := SelectUnits(inst.clauses, a, o);
    var pass := AssignUnits(inst, a, units, o);
    AssignUnitsPinned(inst, a, units, o);
    PassExtends(inst, a, o);
    PassForced(inst, a, o);
    SelectedFresh(inst.clauses, a, o);
    if pass.ok then
      NothingPending(inst, a, o);
      pass
    else
      pass
  }

  // ---------------------------------------------------------------------------
  // The search

  /**
   `dpll(instance, assignments)`. On `Sat(m)` the map `m` keeps every
   assignment given and, when the variables are positive, satisfies every
   clause of the instance passed in (those removed on the way contained a
   literal made true by a decision that no later step changes). Each
   recursive call has strictly more of `vars` updated, so the depth is at
   most `|vars|`. Without any search, a map that already satisfies every
   clause (in particular any map when no clause is left) is the answer, and
   once every variable is assigned the answer is that map or `Unsat`.
   */
  method Dpll(inst: SatInstance, a: Assignment, o: Oracles) returns (r: Verdict)
    ensures r.Sat? ==> Extends(r.model, a)
    ensures r.Sat? && PositiveVariables(inst) ==> Satisfies(r.model, inst.clauses)
    ensures Satisfies(a, inst.clauses) ==> r == Sat(a)
    ensures inst.vars <= a.Keys ==> r == (if Satisfies(a, inst.clauses) then Sat(a) else Unsat)
    decreases |inst.vars - a.Keys|, 1
  {
    if |inst.clauses| == 0 || AllClausesSatisfied(inst, a) {
      return Sat(a);
    }
    var variable := ChooseVariable(inst, a);
    if variable.None? {
      return if AllClausesSatisfied(inst, a) then Sat(a) else Unsat;
    }
    var values := [true, false];
    for k := 0 to |values| {
      r := Branch(inst, a, variable.value, values[k], o);
      if r.Sat? {
        return r;
      }
    }
    return Unsat;
  }

  /** The literal sets of the clauses of a list. */
  ghost function LiteralSets(cs: seq<ClauseRef>): set<set<int>>
  {
    set i | 0 <= i < |cs| :: cs[i].clause.literals
  }

  /**
   `b` holds, by literal set, exactly the clauses of `inst` that do not
   contain `lit`: what is left once `lit` is made true.
   */
  ghost predicate SimplifiedBy(inst: SatInstance, b: SatInstance, lit: int)
  {
    LiteralSets(b.clauses) == set s | s in LiteralSets(inst.clauses) && lit !in s
  }

  /** Two clause lists of the same length whose entries hold equal literal sets, position by position. */
  ghost predicate SameSets(xs: seq<ClauseRef>, ys: seq<ClauseRef>)
  {
    |xs| == |ys| && forall i :: 0 <= i < |xs| ==> xs[i].clause.literals == ys[i].clause.literals
  }

  /** Filtering two position-wise equal lists by the same literal keeps them position-wise equal. */
  lemma {:induction false} WithoutLiteralSameSets(xs: seq<ClauseRef>, ys: seq<ClauseRef>, lit: int)
    requires SameSets(xs, ys)
    ensures SameSets(WithoutLiteral(xs, lit), WithoutLiteral(ys, lit))
  {
    if xs != [] {
      SameSetsTail(xs, ys);
      WithoutLiteralSameSets(xs[1..], ys[1..], lit);
      var hx: seq<ClauseRef> := if lit in xs[0].clause.literals then [] else [xs[0]];
      var hy: seq<ClauseRef> := if lit in ys[0].clause.literals then [] else [ys[0]];
      assert SameSets(hx, hy);
      SameSetsConcat(hx, WithoutLiteral(xs[1..], lit), hy, WithoutLiteral(ys[1..], lit));
    }
  }

  lemma SameSetsTail(xs: seq<ClauseRef>, ys: seq<ClauseRef>)
    requires xs != [] && SameSets(xs, ys)
    ensures SameSets(xs[1..], ys[1..])
  {
    forall i | 0 <= i < |xs| - 1 ensures xs[1..][i].clause.literals == ys[1..][i].clause.literals {
      assert xs[1..][i] == xs[i + 1] && ys[1..][i] == ys[i + 1];
    }
  }

  lemma SameSetsConcat(hx: seq<ClauseRef>, tx: seq<ClauseRef>, hy: seq<ClauseRef>, ty: seq<ClauseRef>)
    requires SameSets(hx, hy) && SameSets(tx, ty)
    ensures SameSets(hx + tx, hy + ty)
  {
    forall i | 0 <= i < |hx| + |tx| ensures (hx + tx)[i].clause.literals == (hy + ty)[i].clause.literals {
      if i >= |hx| {
        assert (hx + tx)[i] == tx[i - |hx|] && (hy + ty)[i] == ty[i - |hx|];
      }
    }
  }

  /**
   The first half of a branch of `dpll`: copy the instance (with its clause
   objects and index) and the assignment map, then `assignVariable` on the
   copies. The original instance is left as it was. The clauses left match,
   position by position, the original's entries without the literal made
   true, duplicates included.
   */
  method Decide(inst: SatInstance, v: int, value: bool, a: Assignment) returns (simplified: SatInstance, updated: Assignment)
    ensures simplified.vars == inst.vars
    ensures updated == a[v := value]
    ensures SimplifiedBy(inst, simplified, if value then v else -v)
    ensures SameSets(simplified.clauses, WithoutLiteral(inst.clauses, if value then v else -v))
  {
    var copy := CopyInstance(inst);
    simplified, updated := AssignVariable(v, value, copy, a);
    var lit := if value then v else -v;
    assert SameSets(copy.clauses, inst.clauses);
    WithoutLiteralSameSets(copy.clauses, inst.clauses, lit);
    SameSetsSimplified(inst, simplified, lit);
    UpdatedAt(a, updated, v, value);
  }

  /** A map that holds `value` at `v` and agrees with `a` everywhere else is `a` updated at `v`. */
  lemma UpdatedAt(a: Assignment, updated: Assignment, v: int, value: bool)
    requires v in updated && updated[v] == value
    requires forall x :: x != v ==> (x in updated <==> x in a) && (x in a ==> updated[x] == a[x])
    ensures updated == a[v := value]
  {
    forall x ensures x in updated <==> x in a[v := value] {
      if x != v {
        assert x in updated <==> x in a;
      }
    }
    assert updated.Keys == a[v := value].Keys;
    forall x | x in updated ensures updated[x] == a[v := value][x] {
      if x != v {
        assert x in a;
      }
    }
  }

  /** Position-wise equal literal sets give equal sets of literal sets. */
  lemma SameSetsLiteralSets(xs: seq<ClauseRef>, ys: seq<ClauseRef>)
    requires SameSets(xs, ys)
    ensures LiteralSets(xs) == LiteralSets(ys)
  {
    forall s | s in LiteralSets(ys) ensures s in LiteralSets(xs) {
      var i :| 0 <= i < |ys| && ys[i].clause.literals == s;
      assert xs[i].clause.literals == s;
    }
  }

  /** A list position-wise equal to the filter of the clauses by `lit` simplifies the instance by `lit`. */
  lemma SameSetsSimplified(inst: SatInstance, b: SatInstance, lit: int)
    requires SameSets(b.clauses, WithoutLiteral(inst.clauses, lit))
    ensures SimplifiedBy(inst, b, lit)
  {
    SameSetsLiteralSets(b.clauses, WithoutLiteral(inst.clauses, lit));
    WithoutLiteralSets(inst.clauses, lit);
  }

  /** By literal set, dropping the clauses that contain `lit` leaves exactly the literal sets without `lit`. */
  lemma WithoutLiteralSets(cs: seq<ClauseRef>, lit: int)
    ensures LiteralSets(WithoutLiteral(cs, lit)) == set s | s in LiteralSets(cs) && lit !in s
  {
    var r := WithoutLiteral(cs, lit);
    forall s | s in LiteralSets(cs) && lit !in s ensures s in LiteralSets(r) {
      var i :| 0 <= i < |cs| && cs[i].clause.literals == s;
      assert cs[i] in r;
      var j :| 0 <= j < |r| && r[j] == cs[i];
    }
    forall s | s in LiteralSets(r) ensures s in LiteralSets(cs) && lit !in s {
      var j :| 0 <= j < |r| && r[j].clause.literals == s;
      assert r[j] in cs;
      var i :| 0 <= i < |cs| && cs[i] == r[j];
    }
  }

  /**
   One iteration of the loop over `{true, false}` in `dpll`: assign the
   chosen variable on copies of the instance and of the map, run
   `propagateAssignments` and `propagateUnitClauses`, and recurse when neither
   reports a conflict.
   */
  method Branch(inst: SatInstance, a: Assignment, v: int, value: bool, o: Oracles) returns (r: Verdict)
    requires v in inst.vars && v !in a
    ensures r.Sat? ==> Extends(r.model, a)
    ensures r.Sat? && PositiveVariables(inst) ==> Satisfies(r.model, inst.clauses)
    decreases |inst.vars - a.Keys|, 0
  {
    var simplified, updated := Decide(inst, v, value, a);
    if !o.propagate(simplified, v, updated) {
      return Unsat;
    }
    var unit := PropagateUnitClauses(simplified, updated, o);
    if !unit.ok {
      return Unsat;
    }
    DecisionProgress(inst.vars, a, v, value, unit.assignments);
    r := Dpll(simplified, unit.assignments, o);
    if r.Sat? {
      DecisionSound(inst, simplified, a, unit.assignments, r.model, v, value);
    }
  }

  /** A decision on an unassigned variable, kept by everything after it, leaves fewer variables unassigned. */
  lemma DecisionProgress(vars: set<int>, a: Assignment, v: int, value: bool, b: Assignment)
    requires v in vars && v !in a
    requires Extends(b, a[v := value])
    ensures |vars - b.Keys| < |vars - a.Keys|
  {
    forall x | x in a ensures x in b {
      assert x in a[v := value];
    }
    SubsetCardinality(vars - b.Keys, vars - a.Keys, v);
  }

  /** One decision level of `dpll`: a model of the simplified copy is a model of the instance it came from. */
  lemma DecisionSound(inst: SatInstance, simplified: SatInstance, a: Assignment, propagated: Assignment,
                      m: Assignment, v: int, value: bool)
    requires v !in a
    requires SimplifiedBy(inst, simplified, if value then v else -v)
    requires Extends(propagated, a[v := value]) && Extends(m, propagated)
    ensures Extends(m, a)
    ensures v > 0 && Satisfies(m, simplified.clauses) ==> Satisfies(m, inst.clauses)
  {
    var lit := if value then v else -v;
    assert m[v] == value;
    if v > 0 && Satisfies(m, simplified.clauses) {
      forall i | 0 <= i < |inst.clauses| ensures IsClauseSatisfied(inst.clauses[i].clause, m) {
        var c := inst.clauses[i].clause;
        if lit in c.literals {
          assert LiteralValue(m, lit) == True;
        } else {
          assert c.literals in LiteralSets(inst.clauses);
          assert c.literals in LiteralSets(simplified.clauses);
          var j :| 0 <= j < |simplified.clauses| && simplified.clauses[j].clause.literals == c.literals;
          var l :| l in simplified.clauses[j].clause.literals && LiteralValue(m, l) == True;
          assert l in c.literals;
        }
      }
    }
  }

  /**
   `solveSAT(instance)`: `Unsat` without any search when the initial unit
   propagation reports a conflict; otherwise the outcome of `dpll` from the
   propagated assignment, which is already the answer when it satisfies
   every clause (always so for an instance without clauses). A `Sat` model satisfies every clause of the input
   when its variables are positive.
   */
  method SolveSat(inst: SatInstance, o: Oracles) returns (r: Verdict)
    ensures !PropagateUnitClauses(inst, map[], o).ok ==> r == Unsat
    ensures r.Sat? ==> Extends(r.model, PropagateUnitClauses(inst, map[], o).assignments)
    ensures r.Sat? && PositiveVariables(inst) ==> Satisfies(r.model, inst.clauses)
    ensures PropagateUnitClauses(inst, map[], o).ok && Satisfies(PropagateUnitClauses(inst, map[], o).assignments, inst.clauses) ==>
      r == Sat(PropagateUnitClauses(inst, map[], o).assignments)
    ensures inst.clauses == [] ==> r == Sat(PropagateUnitClauses(inst, map[], o).assignments)
  {
    var initial := PropagateUnitClauses(inst, map[], o);
    if !initial.ok {
      return Unsat;
    }
    r := Dpll(inst, initial.assignments, o);
  }
}

=== FILE: wrappers.dfy ===
/** Failure-carrying datatypes used in place of Java's `null` and thrown exceptions. */
module Wrappers {

  /** A possibly-absent value: `None` plays the part of a Java `null` reference. */
  datatype Option<+T> = None | Some(value: T)

  /** The outcome of an operation that Java would abort with an exception. */
  datatype Result<+T, +E> = Success(value: T) | Failure(error: E)
}
